=== FILE: README.md ===
# LocalStack internal resources, modelled in Dafny

This project models the internal HTTP resources of LocalStack (`localstack/services/internal.py`). It covers:

- the health resource, whose document can be read, updated with nested `a:b` keys, and used to request a shutdown;
- the deprecation wrapper that re-exposes the health resource under its legacy `/health` path;
- the table of default routes under the reserved `/_localstack` prefix;
- the adapter that plugs the router into the edge proxy's chain of listeners;
- the case-insensitive stage lookup of `/_localstack/init/<stage>`.

The model is written as pure functions over immutable values. The health resource's stored document is passed in and
returned. Effects on collaborators become fields of the result:

- `checkAll`: the service manager is asked to re-check every service;
- `shutdown`: the instance is terminated.

Python exceptions that escape a handler become `Err(Fault)`:

- `NotAMapping`: a truthy body that is not an object;
- `NotAContainer`: item assignment into a non-object;
- `NotFound`: werkzeug's not-found error.

Modules, one per file:

| module | file | contents |
|---|---|---|
| `Outcomes` | `outcomes.dfy` | `Option`, `Result`, faults, reply shapes |
| `Text` | `text.dfy` | `str.split` and `sep.join` on one character, the `in` substring test, ASCII `upper()`/`lower()` |
| `JsonValue` | `json_value.dfy` | JSON values, Python truthiness, lookup along a key path, the recursive merge |
| `Health` | `health.dfy` | PUT key splitting, then the four verbs |
| `Resources` | `resources.dfy` | handler names, the deprecation wrapper, handler resolution, the default route table |
| `InitStages` | `init_stages.dfy` | the stage lookup |
| `Listener` | `listener.dfy` | `forward_request` |

## Nested keys: where the code and its comment part ways

The comment on `on_put` says a key like `features:initScripts` means `['features']['initScripts']`. The loop instead
re-reads every intermediate segment from the top level (`d = state[p]`, not `d = d[p]`).

- For keys of one or two segments the two readings agree (`Health.PlaceItemAgreesUpToTwoSegments`).
- For three segments they differ. `{"a:b:c": 1}` builds `{a: {}, b: {c: 1}}`, not `{a: {b: {c: 1}}}`
  (`Health.PlaceItemDivergesAtThreeSegments`, `Health.PlaceItemDivergesOnExample`).

The model follows the code. `Health.SetPath` states the nested reading of the comment, for a path of any depth, and is
used only for this comparison.

## Notes on what the code does

- Reserved prefix: `constants.INTERNAL_RESOURCE_PATH` is `/_localstack`, as the `new_path` literal of the legacy route
  shows (line 273). The legacy `/health` route is registered with `Router.add` directly, outside that prefix, so it is
  the one default route that does not lie under `/_localstack/`.
- POST: a missing, unparsable or falsy body answers `400 invalid request`. A truthy body that is not an object raises
  at `data.get`. Any truthy object body is answered with `ok`, whether or not it asks for a shutdown.
- Unknown stage: the handler raises `NotFound` with the message `no such stage <name>` (`InitStages.LookupStage`).
  The adapter catches only `NotFound`, and for a path under `/_localstack/` it returns the bare status 404, so the
  message does not reach the listener chain (`Listener.UnknownStageRejected`). Any other fault a handler raises is not
  caught and propagates.

## Model

| member | source | states |
|---|---|---|
| Text.Split | localstack/services/internal.py:98 | `k.split(":")` yields one more piece than there are delimiters, and no piece contains the delimiter |
| Text.JoinSplit | localstack/services/internal.py:98 | joining the pieces of a split back with the delimiter restores the key |
| Text.SplitJoin | localstack/services/internal.py:98 | splitting the join of delimiter-free pieces gives those pieces back |
| Text.SplitWithoutSeparator | localstack/services/internal.py:97-100 | a key without `:` splits into itself alone, so both branches of the `if` give the same path |
| Text.HasSubstring | localstack/services/internal.py:73 | the `"reload" in path` test succeeds exactly when `reload` occurs at some index of the path |
| Text.Upper | localstack/services/internal.py:233 | `upper()` keeps the length and upper-cases each character independently |
| Text.Lower | localstack/services/internal.py:34 | `lower()` keeps the length and lower-cases each character independently |
| Text.UpperIgnoresCase | localstack/services/internal.py:233 | upper-casing forgets case: a lower-cased or upper-cased copy upper-cases to the same string |
| JsonValue.Truthy | localstack/services/internal.py:60 | a body is falsy exactly when it is `null`, `false`, `0`, the empty string, the empty list or the empty object |
| JsonValue.SingletonObjectTruthy | localstack/services/internal.py:92 | a body with one entry is truthy, so `or {}` does not replace it |
| JsonValue.Merge | localstack/services/internal.py:107 | the merged document has exactly the keys of both sides, and keys only in the destination keep their values |
| JsonValue.MergeEmptySource | localstack/services/internal.py:107 | merging an empty update leaves the stored document unchanged |
| JsonValue.MergeSingleLeaf | localstack/services/internal.py:107 | with overwrite, merging one non-object entry is a plain assignment of that entry |
| JsonValue.MergeNestedLeaf | localstack/services/internal.py:107 | with overwrite, merging `{a: {b: v}}` assigns `b` inside the object under `a`, keeping its other fields |
| JsonValue.MergeIntoEmpty | localstack/services/internal.py:84 | merging into an empty document reproduces the source |
| JsonValue.MergeKeepsSourceLeaf | localstack/services/internal.py:107 | with overwrite, every non-object value of the update is found at its path in the result |
| JsonValue.MergeObjectOverLeaf | localstack/services/internal.py:107 | an object in the update replaces a stored non-object under the same key |
| JsonValue.MergeKeepsDestination | localstack/services/internal.py:84 | a stored value survives at its path when the update has nothing there and no non-object value in the way |
| Health.KeyPath | localstack/services/internal.py:96-100 | the path of a key has one segment per delimiter plus one, none contains `:`, and joining them gives the key back |
| Health.LeafPosition | localstack/services/internal.py:102-105 | the leaf lands one or two levels deep, under a visited top-level entry, exactly at the path for up to two segments |
| Health.Touch | localstack/services/internal.py:103-104 | reading through the defaultdict adds each missing segment as an empty object and changes no existing entry |
| Health.PlaceItem | localstack/services/internal.py:102-105 | storing one item succeeds iff the receiving entry is an object or absent; the value is then found at its leaf position, and only the visited entries change |
| Health.BuildUpdate | localstack/services/internal.py:95-105 | the update built from the items has the visited entries as its keys, and the last item's value sits at its leaf position |
| Health.BuildUpdateFailsFromPrefix | localstack/services/internal.py:96-105 | a failing item aborts the whole loop with that failure |
| Health.BuildUpdateStep | localstack/services/internal.py:96-105 | each further item extends the update by one storing step |
| Health.StoreItem | localstack/services/internal.py:102-105 | the statements of one loop iteration compute exactly the storing step |
| Health.CollectUpdate | localstack/services/internal.py:95-105 | the loop over the items computes exactly the fold of storing steps |
| Health.SetPath | localstack/services/internal.py:94 | under the nested reading of the comment, for any depth, the value is found at the full key path |
| Health.PlaceItemTwoSegments | localstack/services/internal.py:102-105 | a two-segment key assigns its second segment inside the top-level object named by its first, creating it when absent |
| Health.SetPathTwoSegments | localstack/services/internal.py:94 | the comment's reading of a two-segment key is `{a: {b: v}}` |
| Health.PlaceItemAgreesUpToTwoSegments | localstack/services/internal.py:94-105 | for keys of one or two segments the code stores exactly what the comment's nested reading gives |
| Health.ThreeSegmentKey | localstack/services/internal.py:97-98 | `a:b:c` splits into `a`, `b`, `c` |
| Health.PlaceItemThreeSegments | localstack/services/internal.py:102-105 | stored into an empty update, as for the first item of a body, any three-segment key `a:b:c` gives `{a: {}, b: {c: v}}`, where `b` wins when `a` and `b` coincide |
| Health.SetPathThreeSegments | localstack/services/internal.py:94 | the comment's reading of a three-segment key is `{a: {b: {c: v}}}` |
| Health.PlaceItemDivergesAtThreeSegments | localstack/services/internal.py:94-105 | stored into an empty update, as for the first item of a body, every three-segment key, repeated segments included, gives something other than the comment's nested reading applied to three segments |
| Health.PlaceItemDivergesOnExample | localstack/services/internal.py:94-105 | `{"a:b:c": 1}` stores `{a: {}, b: {c: 1}}` where the comment's nested reading, applied to three segments, gives `{a: {b: {c: 1}}}` |
| Health.ItemsInOrder | localstack/services/internal.py:96 | for an iteration order that lists each key once, the items are the body's entries, each exactly once, in that order |
| Health.ApplyUpdate | localstack/services/internal.py:95-107 | the update fails iff building it fails; nothing is removed, unvisited entries are kept, and the last non-object value is at its leaf position |
| Health.OnPut | localstack/services/internal.py:91-108 | a missing or falsy body leaves the state unchanged; a truthy non-object body raises; otherwise the state is the update applied, and success answers `{"status": "OK"}` |
| Health.OnGet | localstack/services/internal.py:70-86 | re-check iff the path contains `reload`; the document keeps every stored entry, adds `services` and `version`; `services` names exactly the live and the stored services, and stored non-null service values win over live ones |
| Health.ServicesSnapshot | localstack/services/internal.py:78-84 | the reported `services` object holds exactly the live and the stored service names, a stored non-null value winning over the live state |
| Health.MergeServicesEntry | localstack/services/internal.py:83-84 | merging `{"services": …}` into the stored document changes only its `services` entry |
| Health.OnPost | localstack/services/internal.py:58-68 | a missing or falsy body is a 400; a non-object body raises; every truthy object body answers `ok` with status 200, and requests a shutdown iff `action` is `kill` or `restart` |
| Health.IsShutdownAction | localstack/services/internal.py:64 | the action requests a shutdown exactly when it is the string `kill` or `restart` |
| Health.OnHead | localstack/services/internal.py:88-89 | HEAD always answers `ok` with status 200 |
| Health.TwoSegmentKey | localstack/services/internal.py:97-98 | `a:b` splits into `a`, `b` for delimiter-free segments |
| Health.PutSingleItem | localstack/services/internal.py:91-108 | PUT of a one-entry body applies exactly that single item, and fails exactly when that update fails |
| Health.SingleTwoSegmentItem | localstack/services/internal.py:95-105 | the single item `a:b` builds the update `{a: {b: v}}` |
| Health.PutNestedKeyMerges | localstack/services/internal.py:91-108 | PUT of `{"a:b": v}` sets `b` inside the stored object `a` and keeps that object's other fields |
| Health.SinglePlainItem | localstack/services/internal.py:95-105 | a single plain key builds the update holding that key alone |
| Health.PutPlainKeyStores | localstack/services/internal.py:91-108 | PUT of `{k: v}` for a plain key and a non-object value succeeds and stores `v` under `k` |
| Health.PutThenGet | localstack/services/internal.py:83-85 | PUT of `{k: v}` with a plain key and a non-object value succeeds, and the next GET reports `v` under `k` |
| Resources.HandlerName | localstack/services/internal.py:34 | a handler name is `on_` followed by the lower-cased verb |
| Resources.Handlers | localstack/services/internal.py:46-108 | every handler a resource class defines is named after an HTTP method; a wrapper defines exactly the handlers it was built with |
| Resources.HealthHandlers | localstack/services/internal.py:58-108 | the health resource defines `on_post`, `on_get`, `on_head` and `on_put`, and no `on_delete`, `on_options` or `on_patch` |
| Resources.GetOnlyHandlers | localstack/services/internal.py:111-227 | each of the other five resource classes defines `on_get` and nothing else |
| Resources.Deprecate | localstack/services/internal.py:32-43 | the wrapper records its paths and version, and defines a handler for an HTTP method iff the wrapped resource does, and nothing else |
| Resources.Resolve | localstack/services/internal.py:33-43 | a handler resolves only when the resource defines it, and the call ends in a handler of the same name on a resource that is not a wrapper |
| Resources.ResolveDefined | localstack/services/internal.py:37-43 | a handler resolves iff it is defined, and always ends in a plain resource's handler of the same name |
| Resources.DeprecateDelegates | localstack/services/internal.py:32-43 | a wrapper handler calls the wrapped handler with the wrapper's deprecation notice added in front; nothing else resolves |
| Resources.Add | localstack/services/internal.py:290-291 | `add` appends one route whose path is the reserved prefix followed by the given path |
| Resources.AddUnprefixed | localstack/services/internal.py:267-275 | `Router.add` appends one route with the path as given |
| Resources.DefaultRoutes | localstack/services/internal.py:260-288 | six routes, or seven when debugging; the first is the legacy `/health`, wrapping the very health resource instance that the second route serves and naming that route's path as the new one |
| Resources.DefaultRoutesPrefixed | localstack/services/internal.py:260-291 | the default table has six routes, or seven when debugging; the legacy `/health` comes first and is the only one outside the prefix |
| Resources.DefaultRoutesLegacyHealth | localstack/services/internal.py:263-277 | the legacy route wraps the one health resource instance the prefixed `/health` serves, so both share one stored document; it has the same handlers and names that route as the new path |
| Resources.DeprecatedHealthHandlers | localstack/services/internal.py:32-43 | wrapping the health resource keeps all four of its handlers |
| Resources.LegacyHealthDelegates | localstack/services/internal.py:266-277 | a handler on the legacy `/health` resolves iff it does on the prefixed one; it runs the health handler after one deprecation notice |
| Resources.DefaultRoutesContents | localstack/services/internal.py:278-288 | routes 2 to 5 are `/plugins`, `/init`, `/init/<stage>` and `/cloudformation/deploy` under the prefix, served by the plugins, init-scripts, stage-scoped init-scripts and CloudFormation UI resources, and route 6 is `/diagnose` when debugging |
| Resources.DefaultRoutesDiagnose | localstack/services/internal.py:283-288 | `/diagnose` is registered iff debugging is on |
| Listener.HandlerOutcome | localstack/services/internal.py:304-307 | a handler's value is dispatched, its `NotFound` is a miss, and any other fault it raises stays that fault |
| Listener.ForwardRequest | localstack/services/internal.py:304-313 | a served request passes through unchanged; a `NotFound` falls through iff the path is outside `/_localstack/` and otherwise answers 404; any other fault propagates |
| Listener.BarePrefixFallsThrough | localstack/services/internal.py:308-310 | `/_localstack` without the trailing slash is outside the namespace, so a miss there falls through |
| Listener.DefaultRoutesMisses | localstack/services/internal.py:304-313 | on the default table, a miss behind the legacy `/health` falls through, and one behind any other route answers 404 |
| Listener.StagePath | localstack/services/internal.py:280 | the stage-scoped init path is the `/init/<stage>` route pattern with the stage name filled in, and lies in the namespace |
| Listener.UnknownStageRejected | localstack/services/internal.py:226-235 | the `/init/<stage>` default route serves the stage-scoped resource; through the adapter, a known stage is answered by its handler, and an unknown one raises `NotFound("no such stage …")`, which becomes a bare 404 |
| InitStages.LookupStage | localstack/services/internal.py:232-235 | a name resolves iff its upper-case form is a stage's member name, to that stage; otherwise the fault names the stage as given |
| InitStages.StageNameUpper | localstack/services/internal.py:233 | member names are already upper case |
| InitStages.LookupStageName | localstack/services/internal.py:233 | every stage is found under its member name |
| InitStages.LookupIgnoresCase | localstack/services/internal.py:233 | a name and its lower- or upper-cased copies resolve to the same stage, or all fail |
| InitStages.LookupLowerStageName | localstack/services/internal.py:233 | the lower-case spelling of a stage, as in `/init/boot`, finds it |

## Left out

- `merge_recursive` (`localstack.utils.collections`) is not part of this model. `JsonValue.Merge` assumes these
  semantics:
  - keys only in the destination are kept;
  - an object in the update is merged into the object stored under the same key, or into an empty one when none is
    stored;
  - any other value is written when overwriting, or when the destination has nothing or `null` there.
- JsonValue.Merge: when an object in the update meets a stored non-object, the model replaces the stored value with
  the update's object (`JsonValue.MergeObjectOverLeaf`). So a PUT of a key with two or more segments whose first
  segment names a stored non-object turns that entry into an object. That the real helper does the same is an
  assumption, since its code is not part of this model.
- JsonValue.Merge: whether the helper mutates its destination in place is not modelled. GET merges into a shallow
  copy, so live service states may become visible in the stored `services` entry; the model keeps the stored document
  unchanged by GET.
- Deprecation logging (`deprecated_endpoint`) is reduced to the list of deprecation records a call emits.
- Logging is left out: the warning when the diagnose endpoint is enabled (line 284) and the warning for an unknown
  internal path (line 312) have no counterpart in the model.
- Resource identity: only the health resource carries an instance number, because only its instance holds state
  that two routes share. The other resources are each registered under one route, and the model keeps no state for
  them, so they are modelled by their class alone.
- `CloudFormationUi`, `DiagnoseResource`, `PluginsResource` and `InitScriptsResource` appear only as route targets
  with an `on_get` handler. Their bodies read files, the network and plugin managers, and are not modelled.
- The response body of `InitScriptsStageResource.on_get` is not modelled. It projects the init-script manager's
  state, a collaborator that is not part of this model. Only the stage lookup and its failure are.
- Shutdown (`terminate_all_processes_in_docker`, `SHUTDOWN_INFRA.set()`) is the `shutdown` flag.
- The service manager is the `services` map (service name to state value) and the `checkAll` flag.
- The running version is a parameter.
- `get_internal_apis` (a lazily created singleton) and concurrent requests are not modelled.
- Werkzeug's route matching is not modelled. `Listener.ForwardRequest` takes the router's outcome, served, `NotFound`
  or another fault, as a parameter. A `NotFound` raised by a handler counts as a miss, as the `except` clause treats it.
- JSON parsing (`get_json(force=True, silent=True)`) is a parameter: `None` when the body is missing or unparsable.
- Numbers are integers; floating-point JSON numbers are not modelled.
- Python dict ordering:
  - objects are unordered maps;
  - PUT takes the body's iteration order as an explicit parameter.
- Text.Upper, Text.Lower: only ASCII letters change case. Python's Unicode case mappings (for example `ſ` upper-casing
  to `S`) are not modelled.
- The constants and stages come from modules that are not part of this model:
  - `HTTP_METHODS` is assumed to be `GET POST PUT DELETE HEAD OPTIONS PATCH`;
  - `INTERNAL_RESOURCE_PATH` is taken as `/_localstack`;
  - the stages are assumed to be `BOOT START READY SHUTDOWN`.

=== FILE: health.dfy ===
/**
  The health resource: its persistent state document and the four verbs it answers.

  The state is passed in and returned instead of living on the resource instance. Effects on collaborators are
  results: `checkAll` says whether the service manager is asked to re-check all services, `shutdown` whether the
  instance is terminated.
 */
module Health {
  import opened Outcomes
  import opened JsonValue
  import Text

  /** Delimiter of nested keys in a health update (`"features:initScripts"`). */
  const KEY_DELIMITER: char := ':'

  // ---------------------------------------------------------------------------------------------------------------
  // Key splitting, as the loop of on_put does it
  // ---------------------------------------------------------------------------------------------------------------

  /** The segments of key `k`: split on every delimiter, or the key alone when it has none. */
  function KeyPath(k: string): (path: seq<string>)
    ensures |path| == Text.Count(k, KEY_DELIMITER) + 1
    ensures forall i :: 0 <= i < |path| ==> KEY_DELIMITER !in path[i]
    ensures Text.Join(path, KEY_DELIMITER) == k
  {
    Text.JoinSplit(k, KEY_DELIMITER);
    if KEY_DELIMITER in k then Text.Split(k, KEY_DELIMITER)
    else Text.SplitWithoutSeparator(k, KEY_DELIMITER); [k]
  }

  /** The top-level entries that storing at `path` visits: the single segment, or every segment but the last. */
  function Heads(path: seq<string>): (heads: set<string>)
    requires |path| >= 1
    ensures path[0] in heads
  {
    if |path| == 1 then {path[0]} else Elements(path[..|path| - 1])
  }

  /** The segments of a sequence, as a set. */
  function Elements(segments: seq<string>): set<string>
  {
    set x | x in segments
  }

  /**
    Where the value for `path` ends up: at top level for one segment, otherwise under the last segment inside the
    top-level entry named by the second-to-last segment.
   */
  function LeafPosition(path: seq<string>): (pos: seq<string>)
    requires |path| >= 1
    ensures 1 <= |pos| <= 2
    ensures pos[0] in Heads(path)
    ensures |path| <= 2 ==> pos == path
  {
    if |path| == 1 then path else path[|path| - 2..]
  }

  /** Visiting `segments` through the defaultdict: each absent top-level entry is created as an empty object. */
  function Touch(state: Object, segments: seq<string>): (r: Object)
    ensures r.Keys == state.Keys + Elements(segments)
    ensures forall key :: key in state ==> r[key] == state[key]
    ensures forall key :: key in r && key !in state ==> r[key] == JObj(map[])
    decreases |segments|
  {
    if |segments| == 0 then state
    else
      var visited := if segments[0] in state then state else state[segments[0] := JObj(map[])];
      Touch(visited, segments[1..])
  }

  /** Storing at `path` succeeds unless the top-level entry that receives the leaf exists and is not an object. */
  predicate Fits(state: Object, path: seq<string>)
    requires |path| >= 1
  {
    var pos := LeafPosition(path);
    |pos| == 1 || pos[0] !in state || state[pos[0]].JObj?
  }

  /** One iteration of the loop over the update's items: store `v` for the key split into `path`, as the code does. */
  function PlaceItem(state: Object, path: seq<string>, v: Json): (r: Result<Object>)
    requires |path| >= 1
    ensures r.Ok? <==> Fits(state, path)
    ensures r.Err? ==> r.fault == NotAContainer
    ensures r.Ok? ==> At(JObj(r.value), LeafPosition(path)) == Some(v)
    ensures r.Ok? ==> r.value.Keys == state.Keys + Heads(path)
    ensures r.Ok? ==> forall key :: key in state && key != LeafPosition(path)[0] ==> r.value[key] == state[key]
    ensures r.Ok? ==> forall key :: key in r.value && key !in state && key != LeafPosition(path)[0] ==>
                                      r.value[key] == JObj(map[])
    ensures r.Ok? && |path| >= 2 ==>
              var parent := path[|path| - 2];
              r.value[parent] == JObj((if parent in state then FieldsOf(state[parent]) else map[])[path[|path| - 1] := v])
  {
    var n := |path|;
    if n == 1 then AtOne(state[path[0] := v], path[0]); Ok(state[path[0] := v])
    else
      var visited := Touch(state, path[..n - 1]);
      assert path[n - 2] == path[..n - 1][n - 2];
      var target := path[n - 2];
      if visited[target].JObj? then
        var r := visited[target := JObj(visited[target].fields[path[n - 1] := v])];
        assert LeafPosition(path) == [target, path[n - 1]];
        AtTwo(r, target, path[n - 1]);
        Ok(r)
      else Err(NotAContainer)
  }

  /** Every top-level entry the items visit. */
  function AllHeads(items: seq<(string, Json)>): set<string>
  {
    if |items| == 0 then {} else AllHeads(items[..|items| - 1]) + Heads(KeyPath(items[|items| - 1].0))
  }

  /** The nested update on_put builds from the flat items, in iteration order; the last item's leaf wins. */
  function BuildUpdate(items: seq<(string, Json)>): (r: Result<Object>)
    ensures r.Err? ==> r.fault == NotAContainer
    ensures r.Ok? ==> r.value.Keys == AllHeads(items)
    ensures r.Ok? && |items| > 0 ==>
              At(JObj(r.value), LeafPosition(KeyPath(items[|items| - 1].0))) == Some(items[|items| - 1].1)
    decreases |items|
  {
    if |items| == 0 then Ok(map[])
    else
      var update :- BuildUpdate(items[..|items| - 1]);
      PlaceItem(update, KeyPath(items[|items| - 1].0), items[|items| - 1].1)
  }

  /** A failure part-way through the items is the failure of the whole loop. */
  lemma {:induction false} BuildUpdateFailsFromPrefix(items: seq<(string, Json)>, i: nat)
    requires i <= |items|
    ensures BuildUpdate(items[..i]).Err? ==> BuildUpdate(items) == BuildUpdate(items[..i])
    decreases |items|
  {
    if i < |items| && BuildUpdate(items[..i]).Err? {
      var earlier := items[..|items| - 1];
      assert earlier[..i] == items[..i];
      BuildUpdateFailsFromPrefix(earlier, i);
    } else if i == |items| {
      assert items[..i] == items;
    }
  }

  /** One more item extends the fold by one `PlaceItem` step. */
  lemma BuildUpdateStep(items: seq<(string, Json)>, i: nat, state: Object)
    requires i < |items| && BuildUpdate(items[..i]) == Ok(state)
    ensures BuildUpdate(items[..i + 1]) == PlaceItem(state, KeyPath(items[i].0), items[i].1)
  {
    assert items[..i + 1][..i] == items[..i];
    assert items[..i + 1][i] == items[i];
  }

  /** The body of the item loop of on_put, statement by statement: the inner loop walks the segments through the defaultdict. */
  method StoreItem(state: Object, path: seq<string>, v: Json) returns (r: Result<Object>)
    requires |path| >= 1
    ensures r == PlaceItem(state, path, v)
  {
    var visited := state;
    var j := 0;
    while j < |path| - 1
      invariant 0 <= j <= |path| - 1
      invariant Touch(visited, path[j..|path| - 1]) == Touch(state, path[..|path| - 1])
    {
      if path[j] !in visited {
        visited := visited[path[j] := JObj(map[])];
      }
      assert path[j..|path| - 1][1..] == path[j + 1..|path| - 1];
      j := j + 1;
    }
    assert path[..|path| - 1] == path[0..|path| - 1];
    if |path| == 1 {
      return Ok(state[path[0] := v]);
    }
    var target := path[|path| - 2];
    if !visited[target].JObj? {
      return Err(NotAContainer);
    }
    return Ok(visited[target := JObj(visited[target].fields[path[|path| - 1] := v])]);
  }

  /** The loop of on_put that turns the flat items into the nested update, item by item. */
  method CollectUpdate(items: seq<(string, Json)>) returns (r: Result<Object>)
    ensures r == BuildUpdate(items)
  {
    var state: Object := map[];
    var i := 0;
    while i < |items|
      invariant 0 <= i <= |items|
      invariant BuildUpdate(items[..i]) == Ok(state)
    {
      var (k, v) := items[i];
      var next := StoreItem(state, KeyPath(k), v);
      BuildUpdateStep(items, i, state);
      if next.Err? {
        BuildUpdateFailsFromPrefix(items, i + 1);
        return next;
      }
      state := next.value;
      i := i + 1;
    }
    assert items[..i] == items;
    return Ok(state);
  }

  // ---------------------------------------------------------------------------------------------------------------
  // The nested reading of keys that the comment at on_put gives, and where the code agrees with it
  // ---------------------------------------------------------------------------------------------------------------

  /**
    The nested reading that the comment at `on_put` gives `features:initScripts` (`['features']['initScripts']`),
    applied to a path of any depth; missing levels are created.
   */
  function SetPath(m: Object, path: seq<string>, v: Json): (r: Result<Object>)
    requires |path| >= 1
    ensures r.Ok? ==> At(JObj(r.value), path) == Some(v)
    decreases |path|
  {
    if |path| == 1 then Ok(m[path[0] := v])
    else if path[0] in m && !m[path[0]].JObj? then Err(NotAContainer)
    else
      var inner :- SetPath(if path[0] in m then m[path[0]].fields else map[], path[1..], v);
      Ok(m[path[0] := JObj(inner)])
  }

  /** Storing at a two-segment path `[a, b]` assigns `b` inside the top-level object `a`, created when absent. */
  lemma PlaceItemTwoSegments(state: Object, a: string, b: string, v: Json)
    ensures PlaceItem(state, [a, b], v) ==
            if a in state && !state[a].JObj? then Err(NotAContainer)
            else Ok(state[a := JObj((if a in state then FieldsOf(state[a]) else map[])[b := v])])
  {
    var path := [a, b];
    assert LeafPosition(path) == path;
    assert Heads(path) == {a} by {
      assert path[..1] == [a];
    }
    var r := PlaceItem(state, path, v);
    if r.Ok? {
      var expected := state[a := JObj((if a in state then FieldsOf(state[a]) else map[])[b := v])];
      assert r.value.Keys == expected.Keys;
      assert path[|path| - 2] == a && path[|path| - 1] == b;
      forall key | key in r.value
        ensures r.value[key] == expected[key]
      {
        if key != a {
          assert key in state;
        }
      }
      assert r.value == expected;
    }
  }

  /** The nested reading of a two-segment path `[a, b]`. */
  lemma SetPathTwoSegments(state: Object, a: string, b: string, v: Json)
    ensures SetPath(state, [a, b], v) ==
            if a in state && !state[a].JObj? then Err(NotAContainer)
            else Ok(state[a := JObj((if a in state then FieldsOf(state[a]) else map[])[b := v])])
  {
    assert [a, b][1..] == [b];
  }

  /** Paths of one or two segments are stored exactly where the nested reading puts them. */
  lemma PlaceItemAgreesUpToTwoSegments(state: Object, path: seq<string>, v: Json)
    requires 1 <= |path| <= 2
    ensures PlaceItem(state, path, v) == SetPath(state, path, v)
  {
    if |path| == 2 {
      var a, b := path[0], path[1];
      assert path == [a, b];
      PlaceItemTwoSegments(state, a, b, v);
      SetPathTwoSegments(state, a, b, v);
    } else {
      assert PlaceItem(state, path, v) == Ok(state[path[0] := v]);
    }
  }

  /** The key `a:b:c` for three delimiter-free segments. */
  lemma ThreeSegmentKey(a: string, b: string, c: string)
    requires KEY_DELIMITER !in a && KEY_DELIMITER !in b && KEY_DELIMITER !in c
    ensures KeyPath(a + [KEY_DELIMITER] + b + [KEY_DELIMITER] + c) == [a, b, c]
  {
    Text.SplitJoin([a, b, c], KEY_DELIMITER);
    assert [a, b, c][1..] == [b, c] && [b, c][1..] == [c];
    assert Text.Join([b, c], KEY_DELIMITER) == b + [KEY_DELIMITER] + c;
    assert Text.Join([a, b, c], KEY_DELIMITER) == a + [KEY_DELIMITER] + (b + [KEY_DELIMITER] + c);
    assert a + [KEY_DELIMITER] + (b + [KEY_DELIMITER] + c) == a + [KEY_DELIMITER] + b + [KEY_DELIMITER] + c;
  }

  /**
    Storing a three-segment path into an empty document, as the code does it: `a` is created empty and the leaf lands
    in a top-level `b`; when `a` and `b` coincide, that one entry ends up as `{c: v}`.
   */
  lemma PlaceItemThreeSegments(a: string, b: string, c: string, v: Json)
    ensures PlaceItem(map[], [a, b, c], v) == Ok(map[a := JObj(map[]), b := JObj(map[c := v])])
  {
    var path := [a, b, c];
    assert LeafPosition(path) == [b, c];
    assert Heads(path) == {a, b} by {
      assert path[..2] == [a, b];
      assert forall x :: x in [a, b] <==> x == a || x == b;
    }
    var r := PlaceItem(map[], path, v);
    var expected := map[a := JObj(map[]), b := JObj(map[c := v])];
    assert r.value.Keys == expected.Keys;
    assert path[|path| - 2] == b && path[|path| - 1] == c;
    forall key | key in r.value
      ensures r.value[key] == expected[key]
    {
    }
    assert r.value == expected;
  }

  /** The nested reading of a three-segment path on an empty document: `{a: {b: {c: v}}}`. */
  lemma SetPathThreeSegments(a: string, b: string, c: string, v: Json)
    ensures SetPath(map[], [a, b, c], v) == Ok(map[a := JObj(map[b := JObj(map[c := v])])])
  {
    var path := [a, b, c];
    assert path[1..] == [b, c];
    SetPathTwoSegments(map[], b, c, v);
    assert SetPath(map[], [b, c], v) == Ok(map[b := JObj(map[c := v])]);
  }

  /** A value is never the object that holds it. */
  lemma NotOwnHolder(c: string, v: Json)
    ensures v != JObj(map[c := v])
  {
    var m := map[c := v];
    assert c in m && m[c] == v;
    assert v in m.Values;
  }

  /**
    Every three-segment key is stored differently from the nested reading that the comment at `on_put` gives
    `features:initScripts`, applied to any depth: for `a:b:c` the code stores `{a: {}, b: {c: v}}` (just `{a: {c: v}}`
    when `a` and `b` coincide) where the nested reading gives `{a: {b: {c: v}}}`.
   */
  lemma PlaceItemDivergesAtThreeSegments(a: string, b: string, c: string, v: Json)
    requires KEY_DELIMITER !in a && KEY_DELIMITER !in b && KEY_DELIMITER !in c
    ensures var path := KeyPath(a + [KEY_DELIMITER] + b + [KEY_DELIMITER] + c);
            && PlaceItem(map[], path, v) == Ok(map[a := JObj(map[]), b := JObj(map[c := v])])
            && SetPath(map[], path, v) == Ok(map[a := JObj(map[b := JObj(map[c := v])])])
            && PlaceItem(map[], path, v) != SetPath(map[], path, v)
  {
    ThreeSegmentKey(a, b, c);
    PlaceItemThreeSegments(a, b, c, v);
    SetPathThreeSegments(a, b, c, v);
    var stored := map[a := JObj(map[]), b := JObj(map[c := v])];
    var nested := map[a := JObj(map[b := JObj(map[c := v])])];
    if a != b {
      assert stored[a] != nested[a] by {
        assert b in map[b := JObj(map[c := v])];
      }
    } else {
      assert stored[a] == JObj(map[c := v]);
      if c == a {
        NotOwnHolder(c, v);
        assert map[c := v][c] != map[b := JObj(map[c := v])][c];
      } else {
        assert c in map[c := v] && c !in map[b := JObj(map[c := v])];
      }
      assert stored[a] != nested[a];
    }
  }

  /** For the body `{"a:b:c": 1}` the code stores `{a: {}, b: {c: 1}}`, not `{a: {b: {c: 1}}}`. */
  lemma PlaceItemDivergesOnExample()
    ensures PlaceItem(map[], KeyPath("a:b:c"), JNum(1)) == Ok(map["a" := JObj(map[]), "b" := JObj(map["c" := JNum(1)])])
    ensures SetPath(map[], KeyPath("a:b:c"), JNum(1)) == Ok(map["a" := JObj(map["b" := JObj(map["c" := JNum(1)])])])
  {
    assert "a:b:c" == "a" + [KEY_DELIMITER] + "b" + [KEY_DELIMITER] + "c";
    PlaceItemDivergesAtThreeSegments("a", "b", "c", JNum(1));
  }

  // ---------------------------------------------------------------------------------------------------------------
  // The four verbs
  // ---------------------------------------------------------------------------------------------------------------

  datatype PutOutcome = PutOutcome(state: Object, reply: Reply<Json>)

  datatype GetOutcome = GetOutcome(document: Object, checkAll: bool)

  datatype PostOutcome = PostOutcome(reply: Reply<Json>, shutdown: bool)

  /** The reply of every successful PUT. */
  const PUT_OK: Reply<Json> := Structured(JObj(map["status" := JStr("OK")]))

  /** `order` lists every key of `m` exactly once: the iteration order of a Python dict. */
  predicate EnumeratesKeys(order: seq<string>, m: Object)
  {
    && (forall i :: 0 <= i < |order| ==> order[i] in m)
    && (forall k :: k in m ==> k in order)
    && (forall i, j :: 0 <= i < j < |order| ==> order[i] != order[j])
  }

  /** The `(key, value)` items of `m` in the iteration order `order`: every entry of `m` once, and nothing else. */
  function ItemsInOrder(m: Object, order: seq<string>): (items: seq<(string, Json)>)
    requires EnumeratesKeys(order, m)
    ensures |items| == |order| == |m|
    ensures forall i :: 0 <= i < |order| ==> items[i] == (order[i], m[order[i]])
    ensures forall k :: k in m ==> exists i :: 0 <= i < |items| && items[i] == (k, m[k])
    ensures forall i, j :: 0 <= i < j < |items| ==> items[i].0 != items[j].0
  {
    EnumerationCovers(order, m);
    var items := seq(|order|, i requires 0 <= i < |order| => (order[i], m[order[i]]));
    assert forall k :: k in m ==> exists i :: 0 <= i < |order| && order[i] == k && items[i] == (k, m[k]);
    items
  }

  /** A duplicate-free listing of exactly the keys of `m` has one element per key. */
  lemma {:induction false} EnumerationCovers(order: seq<string>, m: Object)
    requires EnumeratesKeys(order, m)
    ensures |order| == |m|
    decreases |order|
  {
    if |order| > 0 {
      var k := order[0];
      var rest := m - {k};
      forall i | 0 <= i < |order[1..]|
        ensures order[1..][i] in rest
      {
        assert order[1..][i] == order[i + 1] != order[0];
      }
      forall key | key in rest
        ensures key in order[1..]
      {
        var i :| 0 <= i < |order| && order[i] == key;
        assert i != 0;
        assert order[1..][i - 1] == key;
      }
      EnumerationCovers(order[1..], rest);
      assert m.Keys == rest.Keys + {k};
    } else {
      assert forall key :: key !in m;
      assert m == map[];
    }
  }

  /** A body that reaches the item loop: parsed, truthy, and an object. */
  predicate UpdatesState(body: Option<Json>)
  {
    body.Some? && Truthy(body.value) && body.value.JObj?
  }

  /**
    Build the nested update from the items and merge it into the stored document, leaves overwriting. Nothing is
    removed, top-level entries the items do not visit are kept, and the last item's non-object value is found where
    the key splitting put it.
   */
  function ApplyUpdate(state: Object, items: seq<(string, Json)>): (r: Result<Object>)
    ensures r.Ok? <==> BuildUpdate(items).Ok?
    ensures r.Err? ==> r.fault == NotAContainer
    ensures r.Ok? ==> r.value.Keys == state.Keys + AllHeads(items)
    ensures r.Ok? ==> forall key :: key in state && key !in AllHeads(items) ==> r.value[key] == state[key]
    ensures r.Ok? && |items| > 0 && !items[|items| - 1].1.JObj? ==>
              At(JObj(r.value), LeafPosition(KeyPath(items[|items| - 1].0))) == Some(items[|items| - 1].1)
  {
    var update :- BuildUpdate(items);
    if |items| > 0 && !items[|items| - 1].1.JObj? then
      MergeKeepsSourceLeaf(update, state, LeafPosition(KeyPath(items[|items| - 1].0)), items[|items| - 1].1);
      Ok(Merge(update, state, true))
    else Ok(Merge(update, state, true))
  }

  /**
    PUT: a missing, unparsable or falsy body counts as `{}` and leaves the document as it was; a truthy body that is
    not an object has no items to iterate; otherwise the document is updated from the body's items in iteration order.
   */
  function OnPut(state: Object, body: Option<Json>, order: seq<string>): (r: Result<PutOutcome>)
    requires body.Some? && body.value.JObj? ==> EnumeratesKeys(order, body.value.fields)
    ensures r.Ok? ==> r.value.reply == PUT_OK
    ensures (body.None? || !Truthy(body.value)) ==> r == Ok(PutOutcome(state, PUT_OK))
    ensures body.Some? && Truthy(body.value) && !body.value.JObj? ==> r == Err(NotAMapping)
    ensures UpdatesState(body) ==>
              var updated := ApplyUpdate(state, ItemsInOrder(body.value.fields, order));
              && (r.Ok? <==> updated.Ok?)
              && (r.Ok? ==> r.value.state == updated.value)
              && (r.Err? ==> r.fault == updated.fault)
  {
    var data := if body.Some? && Truthy(body.value) then body.value else JObj(map[]);
    var keys := if body.Some? && Truthy(body.value) then order else [];
    if !data.JObj? then Err(NotAMapping)
    else
      MergeEmptySource(state, true);
      var updated :- ApplyUpdate(state, ItemsInOrder(data.fields, keys));
      Ok(PutOutcome(updated, PUT_OK))
  }

  /** The value the stored document holds for service `s` under `services`, if any. */
  function StoredService(state: Object, s: string): Option<Json>
  {
    if "services" in state && state["services"].JObj? && s in state["services"].fields
    then Some(state["services"].fields[s])
    else None
  }

  /**
    The `services` entry GET reports: the live state values (`services`) merged into the stored `services` object
    without overwriting. It holds exactly the live and the stored service names, and a stored non-null value wins.
   */
  function ServicesSnapshot(state: Object, services: map<string, string>): (fields: Object)
    ensures fields.Keys == services.Keys + (if "services" in state then FieldsOf(state["services"]).Keys else {})
    ensures forall s :: s in services ==>
              fields[s] == (if StoredService(state, s).Some? && StoredService(state, s).value != JNull
                            then StoredService(state, s).value else JStr(services[s]))
    ensures forall s :: s !in services && StoredService(state, s).Some? ==> fields[s] == StoredService(state, s).value
  {
    var stored := if "services" in state then FieldsOf(state["services"]) else map[];
    Merge(LiveStates(services), stored, false)
  }

  /** The live service states as JSON strings, one per service. */
  function LiveStates(services: map<string, string>): (live: Object)
    ensures live.Keys == services.Keys
  {
    map s | s in services :: JStr(services[s])
  }

  /**
    Merging `{"services": live}` into the stored document without overwriting replaces only its `services` entry,
    by the snapshot.
   */
  lemma MergeServicesEntry(state: Object, services: map<string, string>)
    ensures Merge(map["services" := JObj(LiveStates(services))], state, false)
            == state["services" := JObj(ServicesSnapshot(state, services))]
  {
    var merged := Merge(map["services" := JObj(LiveStates(services))], state, false);
    var expected := state["services" := JObj(ServicesSnapshot(state, services))];
    assert merged.Keys == expected.Keys;
    assert merged["services"] == expected["services"];
    forall k | k in merged
      ensures merged[k] == expected[k]
    {
    }
  }

  /**
    GET: the stored document with the live service states merged in under `services` (without overwriting stored
    values), and `version` forced to the running version. `services` maps each service name to its state's value.
   */
  function OnGet(state: Object, path: string, services: map<string, string>, version: string): (r: GetOutcome)
    ensures r.checkAll <==> exists i :: Text.OccursAt(path, "reload", i)
    ensures r.document.Keys == state.Keys + {"services", "version"}
    ensures r.document["version"] == JStr(version)
    ensures forall k :: k in state && k != "services" && k != "version" ==> r.document[k] == state[k]
    ensures r.document["services"].JObj?
    ensures r.document["services"].fields.Keys
            == services.Keys + (if "services" in state then FieldsOf(state["services"]).Keys else {})
    ensures forall s :: s in services ==>
              && s in r.document["services"].fields
              && r.document["services"].fields[s] ==
                   (if StoredService(state, s).Some? && StoredService(state, s).value != JNull
                    then StoredService(state, s).value else JStr(services[s]))
    ensures forall s :: s !in services && StoredService(state, s).Some? ==>
              s in r.document["services"].fields && r.document["services"].fields[s] == StoredService(state, s).value
  {
    var reload := Text.HasSubstring(path, "reload");
    var merged := Merge(map["services" := JObj(LiveStates(services))], state, false);
    MergeServicesEntry(state, services);
    GetOutcome(merged["version" := JStr(version)], reload)
  }

  /** The action values that stop the instance: exactly the strings `kill` and `restart`. */
  predicate IsShutdownAction(j: Json): (stops: bool)
    ensures stops <==> j.JStr? && (j.s == "kill" || j.s == "restart")
  {
    j in [JStr("kill"), JStr("restart")]
  }

  /**
    POST: a missing or falsy body is a bad request; a truthy body must be an object, and `action` `kill` or `restart`
    in it requests a shutdown; every accepted body answers `ok`.
   */
  function OnPost(body: Option<Json>): (r: Result<PostOutcome>)
    ensures (body.None? || !Truthy(body.value)) <==> r == Ok(PostOutcome(Raw("invalid request", 400), false))
    ensures r.Err? <==> body.Some? && Truthy(body.value) && !body.value.JObj?
    ensures r.Err? ==> r.fault == NotAMapping
    ensures r.Ok? && r.value.shutdown <==>
              UpdatesState(body) && "action" in body.value.fields && IsShutdownAction(body.value.fields["action"])
    ensures UpdatesState(body) ==> r.Ok? && r.value.reply == Raw("ok", 200)
  {
    if body.None? || !Truthy(body.value) then Ok(PostOutcome(Raw("invalid request", 400), false))
    else if !body.value.JObj? then Err(NotAMapping)
    else
      var action := if "action" in body.value.fields then Some(body.value.fields["action"]) else None;
      Ok(PostOutcome(Raw("ok", 200), action.Some? && IsShutdownAction(action.value)))
  }

  /** HEAD: a liveness probe that always answers `ok`. */
  function OnHead(): (r: Reply<Json>)
    ensures r.Raw? && r.status == 200 && r.body == "ok"
  {
    Raw("ok", 200)
  }

  // ---------------------------------------------------------------------------------------------------------------
  // Properties across verbs
  // ---------------------------------------------------------------------------------------------------------------

  /** The single key `a:b` for two delimiter-free segments. */
  lemma TwoSegmentKey(a: string, b: string)
    requires KEY_DELIMITER !in a && KEY_DELIMITER !in b
    ensures KeyPath(a + [KEY_DELIMITER] + b) == [a, b]
  {
    Text.SplitJoin([a, b], KEY_DELIMITER);
    assert [a, b][1..] == [b];
    assert Text.Join([a, b], KEY_DELIMITER) == a + [KEY_DELIMITER] + b;
  }

  /** PUT of a one-entry object is the update by that single item: it fails when that update fails. */
  lemma PutSingleItem(state: Object, k: string, v: Json)
    ensures var updated := ApplyUpdate(state, [(k, v)]);
            var put := OnPut(state, Some(JObj(map[k := v])), [k]);
            && (put.Ok? <==> updated.Ok?)
            && (put.Ok? ==> put.value == PutOutcome(updated.value, PUT_OK))
  {
    SingletonObjectTruthy(k, v);
    assert ItemsInOrder(map[k := v], [k]) == [(k, v)];
  }

  /** The update built from a single two-segment key `a:b` is `{a: {b: v}}`. */
  lemma SingleTwoSegmentItem(a: string, b: string, v: Json)
    requires KEY_DELIMITER !in a && KEY_DELIMITER !in b
    ensures BuildUpdate([(a + [KEY_DELIMITER] + b, v)]) == Ok(map[a := JObj(map[b := v])])
  {
    TwoSegmentKey(a, b);
    var k := a + [KEY_DELIMITER] + b;
    assert [(k, v)][..0] == [];
    PlaceItemTwoSegments(map[], a, b, v);
  }

  /**
    PUT of `{"a:b": v}` adds or replaces `b` inside the object under `a`, creating it when absent, and keeps the
    object's other fields: nested updates merge, they do not replace.
   */
  lemma PutNestedKeyMerges(state: Object, a: string, b: string, v: Json)
    requires KEY_DELIMITER !in a && KEY_DELIMITER !in b
    requires (a in state ==> state[a].JObj?) && !v.JObj?
    ensures OnPut(state, Some(JObj(map[a + [KEY_DELIMITER] + b := v])), [a + [KEY_DELIMITER] + b]) ==
            Ok(PutOutcome(state[a := JObj((if a in state then state[a].fields else map[])[b := v])], PUT_OK))
  {
    var k := a + [KEY_DELIMITER] + b;
    SingleTwoSegmentItem(a, b, v);
    MergeNestedLeaf(a, b, v, state);
    assert ApplyUpdate(state, [(k, v)]) == Ok(state[a := JObj((if a in state then state[a].fields else map[])[b := v])]);
    PutSingleItem(state, k, v);
  }

  /** The update built from a single plain key is that key alone. */
  lemma SinglePlainItem(k: string, v: Json)
    requires KEY_DELIMITER !in k
    ensures BuildUpdate([(k, v)]) == Ok(map[k := v])
  {
    Text.SplitWithoutSeparator(k, KEY_DELIMITER);
    assert [(k, v)][..0] == [];
  }

  /** PUT of `{k: v}` for a plain key and a non-object value stores `v` under `k`. */
  lemma PutPlainKeyStores(state: Object, k: string, v: Json)
    requires KEY_DELIMITER !in k && !v.JObj?
    ensures OnPut(state, Some(JObj(map[k := v])), [k]).Ok?
    ensures k in OnPut(state, Some(JObj(map[k := v])), [k]).value.state
    ensures OnPut(state, Some(JObj(map[k := v])), [k]).value.state[k] == v
  {
    SinglePlainItem(k, v);
    Text.SplitWithoutSeparator(k, KEY_DELIMITER);
    var updated := ApplyUpdate(state, [(k, v)]);
    assert LeafPosition(KeyPath(k)) == [k];
    AtOne(updated.value, k);
    PutSingleItem(state, k, v);
  }

  /** A non-object value stored by PUT under a plain top-level key is what the next GET reports under that key. */
  lemma PutThenGet(state: Object, k: string, v: Json, path: string, services: map<string, string>, version: string)
    requires KEY_DELIMITER !in k && k != "services" && k != "version" && !v.JObj?
    ensures var put := OnPut(state, Some(JObj(map[k := v])), [k]);
            && put.Ok?
            && var document := OnGet(put.value.state, path, services, version).document;
               k in document && document[k] == v
  {
    PutPlainKeyStores(state, k, v);
    var stored := OnPut(state, Some(JObj(map[k := v])), [k]).value.state;
    assert k in stored && k != "services" && k != "version";
  }
}

=== FILE: init_stages.dfy ===
/**
  The stage-scoped init-scripts resource: the `<stage>` part of `/init/<stage>` names a lifecycle stage,
  case-insensitively; an unknown name is a not-found fault naming it.
 */
module InitStages {
  import opened Outcomes
  import Text

  /** The lifecycle stages init scripts run in. */
  datatype Stage = BOOT | START | READY | SHUTDOWN

  /** The member name of a stage, as `Stage[...]` looks it up. */
  function StageName(st: Stage): string
  {
    match st
    case BOOT => "BOOT"
    case START => "START"
    case READY => "READY"
    case SHUTDOWN => "SHUTDOWN"
  }

  /**
    `Stage[stage.upper()]`, with the `KeyError` turned into `NotFound("no such stage <stage>")`: the name resolves
    exactly when its upper-case form is a stage's member name, and the fault quotes the name as the request gave it.
   */
  function LookupStage(name: string): (r: Result<Stage>)
    ensures r.Ok? <==> exists st :: Text.Upper(name) == StageName(st)
    ensures r.Ok? ==> StageName(r.value) == Text.Upper(name)
    ensures r.Err? ==> r.fault == NotFound("no such stage " + name)
  {
    var key := Text.Upper(name);
    if key == StageName(BOOT) then Ok(BOOT)
    else if key == StageName(START) then Ok(START)
    else if key == StageName(READY) then Ok(READY)
    else if key == StageName(SHUTDOWN) then Ok(SHUTDOWN)
    else Err(NotFound("no such stage " + name))
  }

  /** A string without lower-case ASCII letters is its own upper-case form. */
  lemma UpperFixed(s: string)
    requires forall i :: 0 <= i < |s| ==> !('a' <= s[i] <= 'z')
    ensures Text.Upper(s) == s
  {
  }

  /** Member names are written in upper case. */
  lemma StageNameUpper(st: Stage)
    ensures Text.Upper(StageName(st)) == StageName(st)
  {
    UpperFixed(StageName(st));
  }

  /** Every stage is found under its member name. */
  lemma LookupStageName(st: Stage)
    ensures LookupStage(StageName(st)) == Ok(st)
  {
    StageNameUpper(st);
  }

  /** The lookup does not see case: a name and its lower- or upper-cased copy resolve to the same stage, or all fail. */
  lemma LookupIgnoresCase(name: string)
    ensures LookupStage(Text.Lower(name)).Ok? == LookupStage(name).Ok?
    ensures LookupStage(Text.Upper(name)).Ok? == LookupStage(name).Ok?
    ensures LookupStage(name).Ok? ==>
              && LookupStage(Text.Lower(name)) == LookupStage(name)
              && LookupStage(Text.Upper(name)) == LookupStage(name)
  {
    Text.UpperIgnoresCase(name);
  }

  /** In particular the lower-case spelling of a stage, as in `/init/boot`, finds it. */
  lemma LookupLowerStageName(st: Stage)
    ensures LookupStage(Text.Lower(StageName(st))) == Ok(st)
  {
    LookupStageName(st);
    LookupIgnoresCase(StageName(st));
  }
}

=== FILE: json_value.dfy ===
/**
  The JSON-like values the health document is made of, Python truthiness on them, lookup along a key path,
  and the recursive merge the health resource delegates to.

  The merge models `merge_recursive` from `localstack.utils.collections`, which is not part of this model; its
  semantics here are an assumption, stated on `Merge`.
 */
module JsonValue {
  import opened Outcomes

  /** A decoded JSON value; objects are unordered maps (Python dict order is not modelled). */
  datatype Json =
    | JNull
    | JBool(b: bool)
    | JNum(n: int)
    | JStr(s: string)
    | JArr(items: seq<Json>)
    | JObj(fields: map<string, Json>)

  type Object = map<string, Json>

  /** Python truthiness: `None`, `False`, zero and empty containers are falsy, every other value is truthy. */
  predicate Truthy(j: Json): (truthy: bool)
    ensures !truthy <==> j in {JNull, JBool(false), JNum(0), JStr(""), JArr([]), JObj(map[])}
  {
    match j
    case JNull => false
    case JBool(b) => b
    case JNum(n) => n != 0
    case JStr(s) => |s| > 0
    case JArr(items) => |items| > 0
    case JObj(fields) => |fields| > 0
  }

  /** An object with one entry is truthy. */
  lemma SingletonObjectTruthy(k: string, v: Json)
    ensures Truthy(JObj(map[k := v]))
  {
    assert map[k := v].Keys == {k};
  }

  /** The fields of an object; anything else counts as the empty object. */
  function FieldsOf(j: Json): Object
  {
    if j.JObj? then j.fields else map[]
  }

  /** The value reached by following `path` key by key from `j`; `None` when a key is missing or a non-object is hit. */
  function At(j: Json, path: seq<string>): Option<Json>
    decreases |path|
  {
    if |path| == 0 then Some(j)
    else if j.JObj? && path[0] in j.fields then At(j.fields[path[0]], path[1..])
    else None
  }

  /** Lookup one level down. */
  lemma AtOne(m: Object, a: string)
    ensures At(JObj(m), [a]) == if a in m then Some(m[a]) else None
  {
    if a in m {
      assert [a][1..] == [];
    }
  }

  /** Lookup two levels down. */
  lemma AtTwo(m: Object, a: string, b: string)
    ensures At(JObj(m), [a, b]) == if a in m && m[a].JObj? && b in m[a].fields then Some(m[a].fields[b]) else None
  {
    if a in m {
      assert [a, b][1..] == [b];
      if m[a].JObj? {
        AtOne(m[a].fields, b);
      }
    }
  }

  /** Following `path` from `j` meets a non-object value before the path is used up. */
  predicate Blocked(j: Json, path: seq<string>)
    decreases |path|
  {
    |path| > 0 &&
    (!j.JObj? || (path[0] in j.fields && Blocked(j.fields[path[0]], path[1..])))
  }

  /**
    Deep merge of `src` into `dst`, as `merge_recursive(src, dst, overwrite=overwrite)` (assumed semantics):
    keys only in `dst` keep their value; an object in `src` is merged key by key into the object `dst` holds under
    the same key (an empty object when `dst` holds none there); any other `src` value replaces the `dst` value when
    `overwrite` is set, or when `dst` has no value or `null` under that key, and otherwise `dst` keeps its value.
   */
  function Merge(src: Object, dst: Object, overwrite: bool): (r: Object)
    ensures r.Keys == src.Keys + dst.Keys
    ensures forall k :: k in dst && k !in src ==> r[k] == dst[k]
    decreases JObj(src)
  {
    map k | k in src.Keys + dst.Keys ::
      if k in src then
        if src[k].JObj? then JObj(Merge(src[k].fields, if k in dst then FieldsOf(dst[k]) else map[], overwrite))
        else if overwrite || k !in dst || dst[k] == JNull then src[k]
        else dst[k]
      else dst[k]
  }

  /** Merging nothing leaves the destination as it was. */
  lemma MergeEmptySource(dst: Object, overwrite: bool)
    ensures Merge(map[], dst, overwrite) == dst
  {
  }

  /** With `overwrite`, merging a single non-object entry is a plain assignment of that entry. */
  lemma MergeSingleLeaf(k: string, v: Json, dst: Object)
    requires !v.JObj?
    ensures Merge(map[k := v], dst, true) == dst[k := v]
  {
  }

  /** With `overwrite`, merging `{a: {b: v}}` assigns `b` inside the object under `a` (a new one when there is none). */
  lemma MergeNestedLeaf(a: string, b: string, v: Json, dst: Object)
    requires !v.JObj?
    ensures Merge(map[a := JObj(map[b := v])], dst, true) ==
            dst[a := JObj((if a in dst then FieldsOf(dst[a]) else map[])[b := v])]
  {
    MergeSingleLeaf(b, v, if a in dst then FieldsOf(dst[a]) else map[]);
  }

  /** Merging into an empty destination reproduces the source. */
  lemma {:induction false} MergeIntoEmpty(src: Object, overwrite: bool)
    ensures Merge(src, map[], overwrite) == src
    decreases JObj(src)
  {
    forall k | k in src && src[k].JObj?
      ensures Merge(src[k].fields, map[], overwrite) == src[k].fields
    {
      MergeIntoEmpty(src[k].fields, overwrite);
    }
  }

  /**
    An object in the source that meets a stored non-object replaces it: it is merged into an empty object, which gives
    the source object itself.
   */
  lemma MergeObjectOverLeaf(src: Object, dst: Object, overwrite: bool, k: string)
    requires k in src && src[k].JObj? && k in dst && !dst[k].JObj?
    ensures Merge(src, dst, overwrite)[k] == src[k]
  {
    MergeIntoEmpty(src[k].fields, overwrite);
  }

  /** With `overwrite`, every non-object value of the source is found at the same path in the result. */
  lemma {:induction false} MergeKeepsSourceLeaf(src: Object, dst: Object, path: seq<string>, v: Json)
    requires At(JObj(src), path) == Some(v) && !v.JObj?
    ensures At(JObj(Merge(src, dst, true)), path) == Some(v)
    decreases |path|
  {
    var k := path[0];
    var r := Merge(src, dst, true);
    if |path| > 1 {
      var sub := src[k].fields;
      var dsub := if k in dst then FieldsOf(dst[k]) else map[];
      MergeKeepsSourceLeaf(sub, dsub, path[1..], v);
      assert r[k] == JObj(Merge(sub, dsub, true));
    }
  }

  /**
    A destination value survives the merge at its path when the source has nothing there and no non-object of the
    source lies on the way.
   */
  lemma {:induction false} MergeKeepsDestination(src: Object, dst: Object, overwrite: bool, path: seq<string>, v: Json)
    requires At(JObj(dst), path) == Some(v)
    requires At(JObj(src), path) == None && !Blocked(JObj(src), path)
    ensures At(JObj(Merge(src, dst, overwrite)), path) == Some(v)
    decreases |path|
  {
    var k := path[0];
    var r := Merge(src, dst, overwrite);
    if k in src {
      var sub := src[k].fields;
      var dsub := dst[k].fields;
      MergeKeepsDestination(sub, dsub, overwrite, path[1..], v);
      assert r[k] == JObj(Merge(sub, dsub, overwrite));
    }
  }
}

=== FILE: listener.dfy ===
/**
  The adapter that serves the internal resources through the edge proxy's chain of listeners. Its router is built
  with `fall_through=False`, so a request it cannot serve surfaces as a `NotFound`, which the adapter turns into a
  verdict for the chain.
 */
module Listener {
  import opened Outcomes
  import Resources
  import InitStages

  /**
    What the router and dispatcher did with a request: a handler ran and produced `response`; `NotFound` was raised,
    either because no route matched or because the handler itself raised it; or the handler raised another fault.
   */
  datatype RouterOutcome<R> = Dispatched(response: R) | Missed | Raised(fault: Fault)

  /**
    What `forward_request` gives the listener chain: the response (the chain stops), `True` (the next listener may
    try), a bare status code, or a fault that is not `NotFound` and so propagates out of the adapter.
   */
  datatype ListenerResult<R> = Forwarded(response: R) | FallThrough | Rejected(status: int) | Escaped(fault: Fault)

  /** How a handler's result reaches the adapter: a value is the response, and a raised fault stays a fault. */
  function HandlerOutcome<R>(result: Result<R>): (outcome: RouterOutcome<R>)
    ensures outcome.Dispatched? <==> result.Ok?
    ensures outcome.Dispatched? ==> outcome.response == result.value
    ensures outcome.Missed? <==> result.Err? && result.fault.NotFound?
    ensures outcome.Raised? ==> result.Err? && outcome.fault == result.fault
  {
    match result
    case Ok(response) => Dispatched(response)
    case Err(NotFound(_)) => Missed
    case Err(fault) => Raised(fault)
  }

  /**
    `LocalstackResourceHandler.forward_request`: a served request is passed on unchanged; only `NotFound` is caught,
    and it answers 404 when the path lies under the reserved namespace and lets the next listener try otherwise.
   */
  function ForwardRequest<R>(path: string, outcome: RouterOutcome<R>): (r: ListenerResult<R>)
    ensures r.Forwarded? <==> outcome.Dispatched?
    ensures outcome.Dispatched? ==> r.response == outcome.response
    ensures r.FallThrough? <==> outcome.Missed? && !(Resources.InternalRoot() <= path)
    ensures r.Rejected? <==> outcome.Missed? && Resources.InternalRoot() <= path
    ensures r.Rejected? ==> r.status == 404
    ensures r.Escaped? <==> outcome.Raised?
    ensures outcome.Raised? ==> r.fault == outcome.fault
  {
    match outcome
    case Dispatched(response) => Forwarded(response)
    case Missed => if !(Resources.InternalRoot() <= path) then FallThrough else Rejected(404)
    case Raised(fault) => Escaped(fault)
  }

  /** The prefix alone, without the trailing slash, is not inside the namespace: a miss there falls through. */
  lemma BarePrefixFallsThrough<R>()
    ensures ForwardRequest(Resources.INTERNAL_RESOURCE_PATH, RouterOutcome<R>.Missed) == ListenerResult<R>.FallThrough
  {
    assert |Resources.INTERNAL_RESOURCE_PATH| < |Resources.InternalRoot()|;
  }

  /**
    On the default route table, a `NotFound` raised behind the legacy `/health` lets the next listener try, while one
    raised behind any other registered path is answered with 404.
   */
  lemma DefaultRoutesMisses<R>(debug: bool, health: nat, i: nat)
    requires i < |Resources.DefaultRoutes(debug, health)|
    ensures var path := Resources.DefaultRoutes(debug, health)[i].path;
            ForwardRequest(path, RouterOutcome<R>.Missed) == if i == 0 then ListenerResult<R>.FallThrough else Rejected(404)
  {
    Resources.DefaultRoutesPrefixed(debug, health);
  }

  /** The request path of the stage-scoped init-scripts resource for stage name `name`: its route with `name` as stage. */
  function StagePath(name: string): (path: string)
    ensures Resources.InternalRoot() <= path
    ensures path == Resources.INIT_STAGE_PREFIX + name
  {
    Resources.INTERNAL_RESOURCE_PATH + "/init/" + name
  }

  /**
    Serving the stage-scoped init-scripts resource, registered as the fifth default route: a known stage name is
    answered by its handler, and an unknown one makes the handler raise `NotFound`, which the adapter, the path lying
    in the namespace, turns into a bare 404. The fault's message does not reach the listener chain.
   */
  lemma UnknownStageRejected(debug: bool, health: nat, name: string)
    ensures var route := Resources.DefaultRoutes(debug, health)[4];
            && route == Resources.Route(Resources.INIT_STAGE_PREFIX + "<stage>", Resources.InitScriptsStageResource)
            && StagePath(name) == Resources.INIT_STAGE_PREFIX + name
    ensures var lookup := InitStages.LookupStage(name);
            ForwardRequest(StagePath(name), HandlerOutcome(lookup))
            == if lookup.Ok? then Forwarded(lookup.value) else Rejected(404)
    ensures InitStages.LookupStage(name).Err? ==> InitStages.LookupStage(name).fault == NotFound("no such stage " + name)
  {
    Resources.DefaultRoutesContents(debug, health);
  }
}

=== FILE: outcomes.dfy ===
/** Failure-compatible wrappers and the reply shapes a resource handler produces. */
module Outcomes {

  datatype Option<+T> = None | Some(value: T)

  /** A fault that escapes a handler: the Python code raises it rather than returning a reply. */
  datatype Fault =
    /** The request body is truthy but not a mapping, so `.items()` / `.get()` does not exist on it. */
    | NotAMapping
    /** Item assignment into a value that is not a mapping. */
    | NotAContainer
    /** werkzeug's `NotFound`, with its description. */
    | NotFound(message: string)

  datatype Result<+T> = Ok(value: T) | Err(fault: Fault) {

    predicate IsFailure() {
      Err?
    }

    function PropagateFailure<U>(): Result<U>
      requires Err?
    {
      Err(fault)
    }

    function Extract(): T
      requires Ok?
    {
      value
    }
  }

  /** What a handler hands to the dispatcher: an explicit response, or a value to serialise as JSON (status 200). */
  datatype Reply<+J> =
    | Raw(body: string, status: int)
    | Structured(document: J)
}

=== FILE: resources.dfy ===
/**
  The internal resources as data: which `on_<verb>` handlers each one defines, the deprecation wrapper that
  re-exposes another resource's handlers, and the route table the internal router is built with.
 */
module Resources {
  import opened Outcomes
  import Text

  /** The verbs the wrapper looks for, upper-case as the HTTP server lists them. */
  const HTTP_METHODS: seq<string> := ["GET", "POST", "PUT", "DELETE", "HEAD", "OPTIONS", "PATCH"]

  /** The reserved path prefix of the internal resources. */
  const INTERNAL_RESOURCE_PATH: string := "/_localstack"

  /** The attribute name of the handler for `verb`: `on_` and the verb in lower case. */
  function HandlerName(verb: string): (name: string)
    ensures |name| == |verb| + 3
    ensures name[..3] == "on_"
    ensures name[3..] == Text.Lower(verb)
  {
    "on_" + Text.Lower(verb)
  }

  /** The handler names of the given verbs. */
  function HandlersFor(verbs: seq<string>): set<string>
  {
    set m | m in verbs :: HandlerName(m)
  }

  /** The handler names the wrapper can carry over: one per HTTP method. */
  function VerbHandlerNames(): set<string>
  {
    HandlersFor(HTTP_METHODS)
  }

  /** What a deprecated path records: where it was, since which version, and where it moved. */
  datatype DeprecationRecord = DeprecationRecord(previousPath: string, deprecationVersion: string, newPath: string)

  datatype Resource =
      /** `instance` tells separately constructed health resources apart: each keeps a stored document of its own. */
    | HealthResource(instance: nat)
    | PluginsResource
    | InitScriptsResource
    | InitScriptsStageResource
    | CloudFormationUi
    | DiagnoseResource
      /** A resource whose handlers wrap those of `wrapped`, emitting `record` on every call. */
    | DeprecatedResource(wrapped: Resource, record: DeprecationRecord, handlers: set<string>)

  /**
    The `on_<verb>` attributes a resource defines. Every handler of a resource class is named after an HTTP method,
    so the wrapper can carry all of them over; a wrapper defines what it was built with.
   */
  function Handlers(r: Resource): (handlers: set<string>)
    ensures !r.DeprecatedResource? ==> handlers <= VerbHandlerNames()
    ensures r.DeprecatedResource? ==> handlers == r.handlers
  {
    match r
    case HealthResource(_) => HandlersFor(["POST", "GET", "HEAD", "PUT"])
    case DeprecatedResource(_, _, handlers) => handlers
    case _ => HandlersFor(["GET"])
  }

  /** `handlers` holds the four handlers of the health resource. */
  predicate HealthVerbsDefined(handlers: set<string>)
  {
    && HandlerName("POST") in handlers && HandlerName("GET") in handlers
    && HandlerName("HEAD") in handlers && HandlerName("PUT") in handlers
  }

  /** A verb listed in `verbs` has its handler among theirs. */
  lemma PresentByListing(verbs: seq<string>, verb: string)
    requires verb in verbs
    ensures HandlerName(verb) in HandlersFor(verbs)
  {
  }

  /**
    Which handlers the health resource defines: `on_post`, `on_get`, `on_head` and `on_put`, and none of the other
    HTTP methods.
   */
  lemma HealthHandlers(instance: nat)
    ensures HealthVerbsDefined(Handlers(HealthResource(instance)))
    ensures var handlers := Handlers(HealthResource(instance));
            && HandlerName("DELETE") !in handlers && HandlerName("OPTIONS") !in handlers
            && HandlerName("PATCH") !in handlers
  {
    var verbs := ["POST", "GET", "HEAD", "PUT"];
    assert Handlers(HealthResource(instance)) == HandlersFor(verbs);
    assert forall v :: v in verbs ==> |v| <= 4;
    AbsentByLength(verbs, "DELETE");
    AbsentByLength(verbs, "OPTIONS");
    AbsentByLength(verbs, "PATCH");
    assert verbs[0] == "POST" && verbs[1] == "GET" && verbs[2] == "HEAD" && verbs[3] == "PUT";
    PresentByListing(verbs, "POST");
    PresentByListing(verbs, "GET");
    PresentByListing(verbs, "HEAD");
    PresentByListing(verbs, "PUT");
  }

  /** Every resource class other than the health resource defines `on_get` alone. */
  lemma GetOnlyHandlers(r: Resource)
    requires !r.HealthResource? && !r.DeprecatedResource?
    ensures Handlers(r) == {HandlerName("GET")}
  {
  }

  /** A verb longer than every verb of `verbs` has no handler among theirs. */
  lemma AbsentByLength(verbs: seq<string>, verb: string)
    requires forall v :: v in verbs ==> |v| < |verb|
    ensures HandlerName(verb) !in HandlersFor(verbs)
  {
  }

  /**
    `DeprecatedResource(resource, previous_path, deprecation_version, new_path)`: for every HTTP method whose handler
    `resource` defines, the wrapper defines a handler of the same name; it defines nothing else.
   */
  function Deprecate(resource: Resource, previousPath: string, deprecationVersion: string, newPath: string)
    : (r: Resource)
    ensures r.DeprecatedResource? && r.wrapped == resource
    ensures r.record == DeprecationRecord(previousPath, deprecationVersion, newPath)
    ensures Handlers(r) <= Handlers(resource)
    ensures Handlers(r) <= VerbHandlerNames()
    ensures forall m :: m in HTTP_METHODS ==> (HandlerName(m) in Handlers(r) <==> HandlerName(m) in Handlers(resource))
  {
    DeprecatedResource(resource, DeprecationRecord(previousPath, deprecationVersion, newPath),
                       set m | m in HTTP_METHODS && HandlerName(m) in Handlers(resource) :: HandlerName(m))
  }

  /** A call resolved to the handler that runs, and the deprecation notices emitted before it, outermost first. */
  datatype Call = Call(target: Resource, handler: string, notices: seq<DeprecationRecord>)

  /**
    The call that invoking handler `name` on `r` makes: wrappers delegate to the handler they wrap. Only a handler `r`
    defines can be invoked, and the call always ends in a handler of that name on a resource that is not a wrapper.
   */
  function Resolve(r: Resource, name: string): (call: Option<Call>)
    ensures call.Some? ==> name in Handlers(r)
    ensures call.Some? ==> call.value.handler == name && !call.value.target.DeprecatedResource?
  {
    match r
    case DeprecatedResource(wrapped, record, handlers) =>
      if name !in handlers then None
      else
        (match Resolve(wrapped, name)
         case None => None
         case Some(c) => Some(c.(notices := [record] + c.notices)))
    case _ => if name in Handlers(r) then Some(Call(r, name, [])) else None
  }

  /** Every wrapper in `r` defines only handlers the resource it wraps defines, as `Deprecate` builds them. */
  predicate WellFormed(r: Resource)
  {
    match r
    case DeprecatedResource(wrapped, _, handlers) => handlers <= Handlers(wrapped) && WellFormed(wrapped)
    case _ => true
  }

  /** In a well-formed resource a handler resolves exactly when it is defined, to a plain resource's own handler. */
  lemma {:induction false} ResolveDefined(r: Resource, name: string)
    requires WellFormed(r)
    ensures Resolve(r, name).Some? <==> name in Handlers(r)
    ensures Resolve(r, name).Some? ==>
              && !Resolve(r, name).value.target.DeprecatedResource?
              && Resolve(r, name).value.handler == name
  {
    if r.DeprecatedResource? {
      ResolveDefined(r.wrapped, name);
    }
  }

  /**
    Calling a handler of the wrapper calls the same handler of the wrapped resource, with one more deprecation
    notice, the wrapper's, in front; no other handler name resolves through the wrapper.
   */
  lemma {:induction false} DeprecateDelegates(resource: Resource, previousPath: string, deprecationVersion: string,
                                              newPath: string, name: string)
    requires WellFormed(resource)
    ensures WellFormed(Deprecate(resource, previousPath, deprecationVersion, newPath))
    ensures var wrapper := Deprecate(resource, previousPath, deprecationVersion, newPath);
            Resolve(wrapper, name) ==
              if name in VerbHandlerNames() && Resolve(resource, name).Some? then
                Some(Resolve(resource, name).value.(notices := [wrapper.record] + Resolve(resource, name).value.notices))
              else None
  {
    ResolveDefined(resource, name);
  }

  // ---------------------------------------------------------------------------------------------------------------
  // The route table
  // ---------------------------------------------------------------------------------------------------------------

  /** A registered path template and the resource serving it. */
  datatype Route = Route(path: string, resource: Resource)

  /** `LocalstackResources.add`: register under the reserved prefix. */
  function Add(routes: seq<Route>, path: string, resource: Resource): (r: seq<Route>)
    ensures |r| == |routes| + 1 && r[..|routes|] == routes
    ensures INTERNAL_RESOURCE_PATH <= r[|routes|].path && r[|routes|].path[|INTERNAL_RESOURCE_PATH|..] == path
    ensures r[|routes|].resource == resource
  {
    routes + [Route(INTERNAL_RESOURCE_PATH + path, resource)]
  }

  /** `Router.add`: register the path as given, after the routes already registered. */
  function AddUnprefixed(routes: seq<Route>, path: string, resource: Resource): (r: seq<Route>)
    ensures |r| == |routes| + 1 && r[..|routes|] == routes
    ensures r[|routes|].path == path && r[|routes|].resource == resource
  {
    routes + [Route(path, resource)]
  }

  /**
    The routes `add_default_routes` registers, in order; `debug` is the debug setting and `health` the identity of
    the one health resource it constructs. The legacy `/health` comes first and wraps that very instance, which the
    prefixed `/health` right after it serves.
   */
  function DefaultRoutes(debug: bool, health: nat): (routes: seq<Route>)
    ensures |routes| == (if debug then 7 else 6)
    ensures routes[0].path == "/health" && routes[1].resource == HealthResource(health)
    ensures routes[0].resource == Deprecate(routes[1].resource, "/health", "1.3.0", routes[1].path)
  {
    var legacy := AddUnprefixed([], "/health",
                                Deprecate(HealthResource(health), "/health", "1.3.0", INTERNAL_RESOURCE_PATH + "/health"));
    var routes := Add(legacy, "/health", HealthResource(health));
    var routes := Add(routes, "/plugins", PluginsResource);
    var routes := Add(routes, "/init", InitScriptsResource);
    var routes := Add(routes, "/init/<stage>", InitScriptsStageResource);
    var routes := Add(routes, "/cloudformation/deploy", CloudFormationUi);
    if debug then Add(routes, "/diagnose", DiagnoseResource) else routes
  }

  /** The path prefix that marks a request as one for the internal resources. */
  function InternalRoot(): string
  {
    INTERNAL_RESOURCE_PATH + "/"
  }

  /**
    The legacy `/health` is the first route and the only one outside the reserved prefix; every other route lies
    under it.
   */
  lemma DefaultRoutesPrefixed(debug: bool, health: nat)
    ensures var routes := DefaultRoutes(debug, health);
            && |routes| == (if debug then 7 else 6)
            && routes[0].path == "/health"
            && !(InternalRoot() <= routes[0].path)
            && forall i :: 1 <= i < |routes| ==> InternalRoot() <= routes[i].path
  {
    var routes := DefaultRoutes(debug, health);
    forall i | 1 <= i < |routes|
      ensures InternalRoot() <= routes[i].path
    {
      assert routes[i].path[..|InternalRoot()|] == InternalRoot();
    }
  }

  /**
    The legacy `/health` wraps the very health resource instance the prefixed `/health` serves, so both paths read
    and write one stored document; it defines every handler that instance defines, and names the prefixed route as
    the new path.
   */
  lemma DefaultRoutesLegacyHealth(debug: bool, health: nat)
    ensures var routes := DefaultRoutes(debug, health);
            && routes[1] == Route(INTERNAL_RESOURCE_PATH + "/health", HealthResource(health))
            && routes[0].resource.DeprecatedResource? && routes[0].resource.wrapped == routes[1].resource
            && routes[0].resource == Deprecate(HealthResource(health), "/health", "1.3.0", routes[1].path)
            && Handlers(routes[0].resource) == Handlers(routes[1].resource)
  {
    DeprecatedHealthHandlers(health, "/health", "1.3.0", INTERNAL_RESOURCE_PATH + "/health");
  }

  /** A wrapper around the health resource defines all four of its handlers. */
  lemma DeprecatedHealthHandlers(health: nat, previousPath: string, deprecationVersion: string, newPath: string)
    ensures Handlers(Deprecate(HealthResource(health), previousPath, deprecationVersion, newPath))
            == Handlers(HealthResource(health))
  {
    var wrapper := Deprecate(HealthResource(health), previousPath, deprecationVersion, newPath);
    forall name | name in Handlers(HealthResource(health))
      ensures name in Handlers(wrapper)
    {
      var verb :| verb in ["POST", "GET", "HEAD", "PUT"] && name == HandlerName(verb);
      assert verb in HTTP_METHODS;
    }
  }

  /**
    A request to the legacy `/health` runs the same health handler as one to the prefixed `/health`, with the legacy
    route's deprecation notice emitted first; a handler missing on one is missing on both.
   */
  lemma LegacyHealthDelegates(debug: bool, health: nat, name: string)
    ensures var routes := DefaultRoutes(debug, health);
            && (Resolve(routes[0].resource, name).Some? <==> Resolve(routes[1].resource, name).Some?)
            && (Resolve(routes[1].resource, name).Some? ==>
                  Resolve(routes[0].resource, name).value ==
                  Call(HealthResource(health), name, [DeprecationRecord("/health", "1.3.0", INTERNAL_RESOURCE_PATH + "/health")]))
  {
    var newPath := INTERNAL_RESOURCE_PATH + "/health";
    DefaultRoutesLegacyHealth(debug, health);
    DeprecatedHealthHandlers(health, "/health", "1.3.0", newPath);
    DeprecateDelegates(HealthResource(health), "/health", "1.3.0", newPath, name);
    ResolveDefined(HealthResource(health), name);
  }

  /** The path prefix of the stage-scoped init-scripts resource; its route pattern appends `<stage>`. */
  const INIT_STAGE_PREFIX: string := INTERNAL_RESOURCE_PATH + "/init/"

  /**
    After the two health routes come, in order, the plugins, init-scripts, stage-scoped init-scripts and
    CloudFormation UI routes, each under the reserved prefix, and `/diagnose` last when debugging.
   */
  lemma DefaultRoutesContents(debug: bool, health: nat)
    ensures var routes := DefaultRoutes(debug, health);
            && routes[2] == Route(INTERNAL_RESOURCE_PATH + "/plugins", PluginsResource)
            && routes[3] == Route(INTERNAL_RESOURCE_PATH + "/init", InitScriptsResource)
            && routes[4] == Route(INIT_STAGE_PREFIX + "<stage>", InitScriptsStageResource)
            && routes[5] == Route(INTERNAL_RESOURCE_PATH + "/cloudformation/deploy", CloudFormationUi)
            && (debug ==> routes[6] == Route(INTERNAL_RESOURCE_PATH + "/diagnose", DiagnoseResource))
  {
    assert INIT_STAGE_PREFIX + "<stage>" == INTERNAL_RESOURCE_PATH + "/init/<stage>";
  }

  /** `/diagnose` is registered exactly when debugging is on. */
  lemma DefaultRoutesDiagnose(debug: bool, health: nat)
    ensures var routes := DefaultRoutes(debug, health);
            (exists i :: 0 <= i < |routes| && routes[i].path == INTERNAL_RESOURCE_PATH + "/diagnose") <==> debug
  {
    var routes := DefaultRoutes(debug, health);
    if debug {
      assert routes[6].path == INTERNAL_RESOURCE_PATH + "/diagnose";
    } else {
      forall i | 0 <= i < |routes|
        ensures routes[i].path != INTERNAL_RESOURCE_PATH + "/diagnose"
      {
        if i > 0 {
          assert routes[i].path[|INTERNAL_RESOURCE_PATH|..] != "/diagnose";
        }
      }
    }
  }
}

=== FILE: text.dfy ===
/** The string operations the internal resources rely on: `str.split`, the `in` substring test, and ASCII case mapping. */
module Text {

  /** Number of occurrences of `c` in `s`. */
  function Count(s: string, c: char): nat
  {
    if |s| == 0 then 0
    else (if s[0] == c then 1 else 0) + Count(s[1..], c)
  }

  /** Python's `s.split(sep)` for a one-character separator: every occurrence splits, empty pieces are kept. */
  function Split(s: string, sep: char): (pieces: seq<string>)
    ensures |pieces| == Count(s, sep) + 1
    ensures forall i :: 0 <= i < |pieces| ==> sep !in pieces[i]
    decreases |s|
  {
    if |s| == 0 then [""]
    else
      var rest := Split(s[1..], sep);
      if s[0] == sep then [""] + rest
      else [[s[0]] + rest[0]] + rest[1..]
  }

  /** Python's `sep.join(pieces)`. */
  function Join(pieces: seq<string>, sep: char): string
    requires |pieces| >= 1
  {
    if |pieces| == 1 then pieces[0]
    else pieces[0] + [sep] + Join(pieces[1..], sep)
  }

  /** Joining the pieces back with the separator restores the string. */
  lemma {:induction false} JoinSplit(s: string, sep: char)
    ensures Join(Split(s, sep), sep) == s
    decreases |s|
  {
    if |s| > 0 {
      var rest := Split(s[1..], sep);
      JoinSplit(s[1..], sep);
      if s[0] == sep {
        assert Split(s, sep) == [""] + rest;
        assert ([""] + rest)[1..] == rest;
        assert s == [sep] + s[1..];
      } else {
        var pieces := Split(s, sep);
        assert pieces == [[s[0]] + rest[0]] + rest[1..];
        if |rest| == 1 {
          assert s == [s[0]] + rest[0];
        } else {
          assert pieces[1..] == rest[1..];
          assert Join(rest, sep) == rest[0] + [sep] + Join(rest[1..], sep);
          assert s == [s[0]] + s[1..];
        }
      }
    }
  }

  /** Splitting a separator-free prefix glued to `b` only extends the first piece of `b`'s split. */
  lemma {:induction false} SplitFreePrefix(a: string, b: string, sep: char)
    requires sep !in a
    ensures Split(a + b, sep) == [a + Split(b, sep)[0]] + Split(b, sep)[1..]
    decreases |a|
  {
    if |a| > 0 {
      SplitFreePrefix(a[1..], b, sep);
      assert (a + b)[1..] == a[1..] + b;
      assert [a[0]] + (a[1..] + Split(b, sep)[0]) == a + Split(b, sep)[0];
    } else {
      var pieces := Split(b, sep);
      assert a + b == b;
      assert a + pieces[0] == pieces[0];
      assert pieces == [pieces[0]] + pieces[1..];
    }
  }

  /** A string without the separator splits into itself alone. */
  lemma SplitWithoutSeparator(s: string, sep: char)
    requires sep !in s
    ensures Split(s, sep) == [s]
  {
    SplitFreePrefix(s, "", sep);
    assert s + "" == s;
    assert Split("", sep) == [""];
  }

  /** Splitting the join of separator-free pieces gives the pieces back. */
  lemma {:induction false} SplitJoin(pieces: seq<string>, sep: char)
    requires |pieces| >= 1
    requires forall i :: 0 <= i < |pieces| ==> sep !in pieces[i]
    ensures Split(Join(pieces, sep), sep) == pieces
    decreases |pieces|
  {
    if |pieces| == 1 {
      SplitFreePrefix(pieces[0], "", sep);
      assert Split("", sep) == [""];
      assert pieces[0] + "" == pieces[0];
      assert pieces == [pieces[0]];
    } else {
      var tail := Join(pieces[1..], sep);
      SplitJoin(pieces[1..], sep);
      assert Join(pieces, sep) == pieces[0] + ([sep] + tail);
      SplitFreePrefix(pieces[0], [sep] + tail, sep);
      assert ([sep] + tail)[1..] == tail;
      var after := Split([sep] + tail, sep);
      assert after == [""] + pieces[1..];
      assert after[0] == "" && after[1..] == pieces[1..];
      assert pieces[0] + after[0] == pieces[0];
      assert pieces == [pieces[0]] + pieces[1..];
    }
  }

  /** `sub` occurs in `s` starting at index `i`. */
  ghost predicate OccursAt(s: string, sub: string, i: int)
  {
    0 <= i && i + |sub| <= |s| && s[i..i + |sub|] == sub
  }

  /** Python's `sub in s` for strings, scanning from the left: it finds `sub` exactly when it occurs at some index. */
  function HasSubstring(s: string, sub: string): (found: bool)
    ensures found <==> exists i :: OccursAt(s, sub, i)
    decreases |s|
  {
    if sub <= s then
      assert OccursAt(s, sub, 0);
      true
    else if |s| == 0 then false
    else
      OccurrenceShift(s, sub);
      HasSubstring(s[1..], sub)
  }

  /** When `sub` is not a prefix of `s`, it occurs in `s` exactly when it occurs in `s` without its first character. */
  lemma OccurrenceShift(s: string, sub: string)
    requires |s| > 0 && !(sub <= s)
    ensures (exists i :: OccursAt(s, sub, i)) <==> (exists j :: OccursAt(s[1..], sub, j))
  {
    if exists j :: OccursAt(s[1..], sub, j) {
      var j :| OccursAt(s[1..], sub, j);
      assert s[j + 1..j + 1 + |sub|] == s[1..][j..j + |sub|];
      assert OccursAt(s, sub, j + 1);
    }
    if exists i :: OccursAt(s, sub, i) {
      var i :| OccursAt(s, sub, i);
      assert i != 0;
      assert s[1..][i - 1..i - 1 + |sub|] == s[i..i + |sub|];
      assert OccursAt(s[1..], sub, i - 1);
    }
  }

  /** ASCII upper-casing of one character; every other character is left alone. */
  function UpperChar(c: char): char
  {
    if 'a' <= c <= 'z' then (c as int - 32) as char else c
  }

  /** ASCII lower-casing of one character; every other character is left alone. */
  function LowerChar(c: char): char
  {
    if 'A' <= c <= 'Z' then (c as int + 32) as char else c
  }

  /** Python's `s.upper()` restricted to ASCII letters. */
  function Upper(s: string): (u: string)
    ensures |u| == |s|
    ensures forall i :: 0 <= i < |s| ==> u[i] == UpperChar(s[i])
  {
    if |s| == 0 then "" else [UpperChar(s[0])] + Upper(s[1..])
  }

  /** Python's `s.lower()` restricted to ASCII letters. */
  function Lower(s: string): (l: string)
    ensures |l| == |s|
    ensures forall i :: 0 <= i < |s| ==> l[i] == LowerChar(s[i])
  {
    if |s| == 0 then "" else [LowerChar(s[0])] + Lower(s[1..])
  }

  /** Upper-casing forgets the case of the input: a lower-cased or upper-cased copy upper-cases to the same string. */
  lemma UpperIgnoresCase(s: string)
    ensures Upper(Lower(s)) == Upper(s)
    ensures Upper(Upper(s)) == Upper(s)
  {
    assert forall i :: 0 <= i < |s| ==> UpperChar(LowerChar(s[i])) == UpperChar(s[i]);
  }
}
